=== FILE: README.md ===
# SimpleDB in Dafny

A model of `SimpleDB`, a Go key-value store. The store keeps a `map[string]interface{}`
in memory and mirrors it to one JSON file. Each `Set` or `Delete` cancels the pending
write timer and arms a new one, so a burst of mutations leads to a single write of
the final map.

The model has four modules:

- `Values` (values.dfy): the stored `Value` (Go's `interface{}`, with `Nil` for Go's
  nil) and `Option`.
- `Paths` (paths.dfy): the `.json` suffix and resolution against the working
  directory, as done by `init`.
- `Store` (store.dfy): the options read by `NewSimpleDB`, the `DB` record and one
  pure transition per Go method (`New`,
  `Set`, `Get`, `Delete`, `Keys`, `writeDb`, `timeoutSet`, `timeoutRemove`), plus
  `Fire`, where the runtime fires one timer.
  - Beside the Go struct's fields, a `DB` carries:
    - `armed`: the timers the runtime will still fire;
    - `nextTimer`: the id the next `time.AfterFunc` returns;
    - `disk`: what the backing file holds.
  - `TimersValid` says the runtime holds exactly the timer the `timeout` handle names.
    So at most one write is ever outstanding.
  - `Synced` says that, with no write outstanding, the file holds the in-memory map.
    A store whose read failed on a file with entries starts out of sync, and its
    first flush overwrites those entries.
- `Events` (events.dfy): runs of calls and timer firings. `Replay` is a reference
  definition: a plain map updated by each set and delete. The lemmas relate runs to
  `Replay`, prove that the invariant holds along every run, and prove debounce
  coalescing.

Every transition is atomic. Wall-clock time, file I/O and JSON encoding are
abstracted. The working directory, what the file holds, and whether reading it
succeeded are parameters of `New`.

Facts about the Go code that the model keeps:

- the flush delay is fixed at 500 ms (line 114);
- the option naming the file is `file` (line 27);
- `Delete` of a missing key still cancels and re-arms the timer (lines 92-96);
- `Get` of a missing key returns nil (line 85), the same value as a key stored with
  nil;
- values are stored as given (line 78).

## Model

| member | source | states |
|---|---|---|
| Store.ConfiguredFile | simple_json_db.go:23-29 | the file name is the `file` option when it holds a string, and `./db.json` when the option is missing or of another type |
| Store.ConfiguredDebug | simple_json_db.go:24-32 | debug output is on exactly when the `debug` option holds boolean true |
| Paths.WithJsonExt | simple_json_db.go:42-44 | the result ends in `.json`; it equals the input exactly when the input already ends in `.json`, so the suffix is never added twice; otherwise it is the input with `.json` appended |
| Paths.WithJsonExtIdempotent | simple_json_db.go:42-44 | enforcing the suffix a second time changes nothing |
| Paths.Join | simple_json_db.go:47 | the joined path ends with the file name and starts with the directory; an absolute directory gives an absolute path |
| Paths.Resolve | simple_json_db.go:45-48 | an absolute path passes through unchanged; a relative one ends up below the working directory |
| Paths.Normalize | simple_json_db.go:42-48 | the final path always ends in `.json`; it is absolute when the working directory is; an absolute path that already ends in `.json` is left as is |
| Paths.NormalizeIdempotent | simple_json_db.go:42-48 | with an absolute working directory, normalising an already normalised path changes nothing |
| Store.NewPathFromOptions | simple_json_db.go:20-48 | without a string `file` option a new store uses `./db.json` joined, uncleaned, below the working directory; a `file` option naming an absolute `.json` path is used exactly |
| Store.New | simple_json_db.go:20-59 | a new store has no timer armed; after a successful read it holds the object the file holds (or an empty map when there is none), after a failed read an empty map; the disk keeps whatever the file holds; its path is the normalised configured name and its debug flag the configured one; memory agrees with the file exactly when the read succeeded or the file holds no entries |
| Store.UnreadFileIsOverwritten | simple_json_db.go:52-78 | when the read fails on a file that holds entries, the store starts empty and its first flush replaces the file with only the newly set key, losing every other entry the file held |
| Store.TimeoutRemove | simple_json_db.go:117-125 | the handle is cleared and exactly the timer it named is stopped, every other armed timer stays armed; under sound bookkeeping no write remains outstanding; data and file are untouched |
| Store.TimeoutRemoveIdempotent | simple_json_db.go:117-125 | removing the timeout twice is the same as removing it once |
| Store.TimeoutSet | simple_json_db.go:110-115 | under sound bookkeeping arms a timer not armed before; it points the handle at it; from a state with no handle, exactly one write is outstanding afterwards |
| Store.UnguardedArmOrphansTimer | simple_json_db.go:74-77 | arming without first removing the old timer would leave two writes outstanding and break the bookkeeping, which is why `Set` and `Delete` check the handle first |
| Store.Rearm | simple_json_db.go:74-77 | the guarded cancel-then-arm leaves exactly one write outstanding; that write is new, and every earlier one is cancelled |
| Store.Set | simple_json_db.go:70-79 | the key maps to the value; the key set gains only that key; all other entries are unchanged; the file is untouched; exactly one new write is outstanding, and the invariant holds |
| Store.Get | simple_json_db.go:81-86 | the stored value for a present key, and nil for a missing key |
| Store.GetAfterSet | simple_json_db.go:70-86 | after `Set(k, v)`, `Get(k)` is `v`, and every other key reads as before |
| Store.GetAfterDelete | simple_json_db.go:81-97 | after `Delete(k)`, `Get(k)` is nil, and every other key reads as before |
| Store.MissingReadsAsNil | simple_json_db.go:85 | a missing key and a key stored with nil read the same, although the two maps differ |
| Store.Delete | simple_json_db.go:88-97 | the key is gone; the key set loses only that key; other entries are unchanged; deleting a missing key keeps the map; exactly one new write is outstanding |
| Store.DeleteMissingRearms | simple_json_db.go:92-96 | deleting a missing key keeps the map but still replaces the outstanding write with a new one |
| Store.Keys | simple_json_db.go:99-108 | the result contains every key of the map, and nothing else; it has no duplicates; its length is the map's size |
| Store.WriteDb | simple_json_db.go:61-68 | the file holds the current map and the handle is cleared; under sound bookkeeping no write is outstanding and the invariant holds |
| Store.Fire | simple_json_db.go:114 | a stopped or already fired timer does nothing; an armed one writes the current map; under sound bookkeeping it leaves no write outstanding |
| Store.AtMostOnePending | simple_json_db.go:74-77 | under sound bookkeeping at most one write is outstanding, and one is outstanding exactly when the handle is set |
| Events.InertEvents | simple_json_db.go:81-108 | `Get`, `Keys` and a stale timer change neither the map, the timers, nor the file |
| Events.RunKeepsTimersValid | simple_json_db.go:61-125 | from any store with sound timer bookkeeping, including every new store and one whose read failed, every run keeps it, so at most one write is ever outstanding |
| Events.RunPreservesInv | simple_json_db.go:61-125 | every run of calls and firings keeps the invariant: at most one write outstanding, and memory equals the file when none is |
| Events.RunMatchesReplay | simple_json_db.go:70-97 | after any run, the map equals the reference replay of the run's sets and deletes |
| Events.MutationsRearm | simple_json_db.go:70-97 | after a non-empty run of sets and deletes, exactly one write is outstanding, every earlier write is cancelled, and the file is untouched |
| Events.Coalesce | simple_json_db.go:61-125 | from any store with sound bookkeeping, even one whose file disagrees with memory, after a non-empty run of sets and deletes firing the one armed timer writes exactly the final map, leaves nothing outstanding and brings memory and file into agreement; firing any other timer writes nothing |
| Events.CoalesceAsRun | simple_json_db.go:61-125 | the same with the firing as the last event of the run: the file holds the replay of the run's sets and deletes and nothing is outstanding |
| Events.FailedReadFlushesReplay | simple_json_db.go:52-97 | after a failed read of a file with entries, the first flush after any run of sets and deletes writes the replay of that run on an empty map, and memory and file agree from then on |
| Events.RestartSeesData | simple_json_db.go:52-66 | with no write outstanding, a store rebuilt with a successful read, with options that name the same file, holds the same map, for values JSON returns unchanged, such as strings |
| Events.SetTwiceThenRestart | simple_json_db.go:52-79 | from any store with sound bookkeeping, set a key to one value and then to another, fire the one armed timer, rebuild the store from the same file with a successful read: the key reads the second value, for values JSON returns unchanged, such as strings |
| Events.SetThenDeleteThenFlush | simple_json_db.go:61-97 | from any store with sound bookkeeping, set a key and then delete it before the flush: the file then holds the earlier map without that key |

## Left out

- File I/O (`ioutil.ReadFile`, `ioutil.WriteFile`) and `os.Getwd`, at lines 46, 52 and 66. `New` takes the working directory, the decoded file contents and whether the read succeeded as parameters. The file is an abstract snapshot that `writeDb` always overwrites.
- `encoding/json` (lines 54 and 65) is library code. Its behaviour is not modelled. Number types change in a round trip (line 54 decodes a stored int as `float64`), so the restart lemmas hold only for values JSON returns unchanged, such as strings. Marshal is taken to succeed, and the snapshot is the map itself.
- Store.New: a file holding JSON `null` makes `json.Unmarshal` (line 54) set the map to nil, and a later `Set` then panics assigning to a nil map (line 78); the model instead loads such a file as a usable map, because decoding is a parameter of `New`.
- Paths.Join: `filepath.Join` and `filepath.IsAbs` are modelled as joining with `/` and "starts with `/`". Go's lexical cleaning of `.` and `..` and other platforms' rules are not modelled.
- Paths.Resolve: inherits the missing cleaning. Its promise that the working directory is a prefix and the name a suffix of the result does not hold in Go for names such as `./db.json` (Go gives `<wd>/db.json`) or `../x.json`.
- Real time: the 500 ms delay of `time.AfterFunc` (line 114) is not modelled. Any armed timer may fire at any point of a run, which covers every delay. `Timer.Stop` is modelled as removing the timer from the armed set.
- Concurrency: the timer callback runs on its own goroutine without a lock, and this race is not modelled. For example, line 67 can clear a newer timer's handle. Every transition is atomic.
- Debug printing (`fmt.Println`/`Printf`): it has no effect on behaviour. The `debug` flag is kept as a field.

=== FILE: events.dfy ===
/**
 Runs of a SimpleDB: the public calls and the timer runtime's firings as one
 sequence of atomic events, and what any such run does to memory, to the file
 and to the outstanding flush.
 */
module Events {
  import opened Values
  import opened Store
  import Paths

  /** One step of a run: a call on the store, or the runtime firing a timer. */
  datatype Event =
    | SetKey(key: string, value: Value)
    | DeleteKey(key: string)
    | GetKey(key: string)
    | ListKeys
    | TimerFires(timer: TimerId)

  predicate IsMutation(e: Event) {
    e.SetKey? || e.DeleteKey?
  }

  predicate AllMutations(es: seq<Event>) {
    forall i :: 0 <= i < |es| ==> IsMutation(es[i])
  }

  /** The store after one event. Reads return their value to the caller and leave
      the store as it was. */
  function Apply(db: DB, e: Event): DB {
    match e
    case SetKey(k, v) => Set(db, k, v)
    case DeleteKey(k) => Delete(db, k)
    case GetKey(_) => db
    case ListKeys => db
    case TimerFires(t) => Fire(db, t)
  }

  /** The store after a run of events, in order. */
  function Run(db: DB, es: seq<Event>): DB
    decreases |es|
  {
    if es == [] then db else Run(Apply(db, es[0]), es[1..])
  }

  /** The reference meaning of a run for the map alone: a plain map updated by each
      set and delete, with no store, timer or file involved. */
  function Replay(m: map<string, Value>, es: seq<Event>): map<string, Value>
    decreases |es|
  {
    if es == [] then m
    else
      var m' := match es[0]
        case SetKey(k, v) => m[k := v]
        case DeleteKey(k) => m - {k}
        case _ => m;
      Replay(m', es[1..])
  }

  /** Running two runs one after the other is running their concatenation. */
  lemma {:induction false} RunAppend(db: DB, a: seq<Event>, b: seq<Event>)
    ensures Run(db, a + b) == Run(Run(db, a), b)
    decreases |a|
  {
    if a != [] {
      assert (a + b)[0] == a[0];
      assert (a + b)[1..] == a[1..] + b;
      RunAppend(Apply(db, a[0]), a[1..], b);
    } else {
      assert a + b == b;
    }
  }

  /** Reads and stale timers leave the store exactly as it was. */
  lemma InertEvents(db: DB, k: string, t: TimerId)
    requires t !in db.armed
    ensures Apply(db, GetKey(k)) == db
    ensures Apply(db, ListKeys) == db
    ensures Apply(db, TimerFires(t)) == db
  {
  }

  /** Every run from sound timer bookkeeping keeps it, so at most one flush is ever
      outstanding; this includes a store whose read failed on a file with entries. */
  lemma {:induction false} RunKeepsTimersValid(db: DB, es: seq<Event>)
    requires TimersValid(db)
    ensures TimersValid(Run(db, es))
    ensures |Run(db, es).armed| <= 1
    decreases |es|
  {
    if es == [] {
      AtMostOnePending(db);
    } else {
      var next := Apply(db, es[0]);
      assert TimersValid(next);
      RunKeepsTimersValid(next, es[1..]);
    }
  }

  /** Every run keeps the invariant: at most one flush outstanding, the handle naming
      it, and memory equal to the file whenever none is outstanding. */
  lemma {:induction false} RunPreservesInv(db: DB, es: seq<Event>)
    requires Inv(db)
    ensures Inv(Run(db, es))
    ensures |Run(db, es).armed| <= 1
    decreases |es|
  {
    if es == [] {
      AtMostOnePending(db);
    } else {
      var next := Apply(db, es[0]);
      assert Inv(next);
      RunPreservesInv(next, es[1..]);
    }
  }

  /** Whatever the interleaving with reads and timer firings, memory after a run is
      the reference replay of its sets and deletes. */
  lemma {:induction false} RunMatchesReplay(db: DB, es: seq<Event>)
    ensures Run(db, es).data == Replay(db.data, es)
    decreases |es|
  {
    if es != [] {
      RunMatchesReplay(Apply(db, es[0]), es[1..]);
    }
  }

  /** A non-empty run of sets and deletes leaves exactly one flush outstanding, a new
      one: every flush outstanding before has been cancelled, and the file is untouched. */
  lemma {:induction false} MutationsRearm(db: DB, ms: seq<Event>)
    requires TimersValid(db) && AllMutations(ms) && |ms| > 0
    ensures TimersValid(Run(db, ms)) && |Run(db, ms).armed| == 1
    ensures forall t :: t in Run(db, ms).armed ==> db.nextTimer <= t
    ensures Run(db, ms).armed !! db.armed
    ensures Run(db, ms).disk == db.disk
    decreases |ms|
  {
    var next := Apply(db, ms[0]);
    assert IsMutation(ms[0]);
    assert TimersValid(next) && next.nextTimer > db.nextTimer && next.disk == db.disk;
    if |ms| > 1 {
      assert AllMutations(ms[1..]) by {
        forall i | 0 <= i < |ms[1..]| ensures IsMutation(ms[1..][i]) {
          assert ms[1..][i] == ms[i + 1];
        }
      }
      MutationsRearm(next, ms[1..]);
    } else {
      assert ms[1..] == [];
    }
  }

  /** Debounce coalescing: after any non-empty run of sets and deletes, firing the one
      outstanding timer writes exactly the final map and leaves nothing outstanding,
      while firing any other timer writes nothing. Sound timer bookkeeping suffices:
      the file need not agree with memory beforehand. */
  lemma Coalesce(db: DB, ms: seq<Event>)
    requires TimersValid(db) && AllMutations(ms) && |ms| > 0
    ensures Run(db, ms).timeout.Some?
    ensures var f := Apply(Run(db, ms), TimerFires(Run(db, ms).timeout.value));
      f.disk == Some(Replay(db.data, ms)) && f.data == Replay(db.data, ms) && !Pending(f) && Inv(f)
    ensures forall t :: t != Run(db, ms).timeout.value ==>
      Apply(Run(db, ms), TimerFires(t)) == Run(db, ms)
  {
    MutationsRearm(db, ms);
    RunMatchesReplay(db, ms);
  }

  /** Coalescing with the firing as the last event of the run. */
  lemma CoalesceAsRun(db: DB, ms: seq<Event>)
    requires TimersValid(db) && AllMutations(ms) && |ms| > 0
    ensures Run(db, ms).timeout.Some?
    ensures var f := Run(db, ms + [TimerFires(Run(db, ms).timeout.value)]);
      f.disk == Some(Replay(db.data, ms)) && !Pending(f) && Inv(f)
  {
    Coalesce(db, ms);
    var r := Run(db, ms);
    var e := TimerFires(r.timeout.value);
    RunAppend(db, ms, [e]);
    assert [e][1..] == [];
    assert Run(r, [e]) == Run(Apply(r, e), []);
  }

  /** A store whose read failed on a file holding `m` loses `m` at its first flush:
      after any non-empty run of sets and deletes the file holds the replay of that
      run on an empty map, and from then on memory and file agree. */
  lemma FailedReadFlushesReplay(options: map<string, Value>, wd: string,
                                m: map<string, Value>, ms: seq<Event>)
    requires AllMutations(ms) && |ms| > 0
    ensures var r := Run(New(options, wd, Some(m), false), ms);
      r.timeout.Some? &&
      Apply(r, TimerFires(r.timeout.value)).disk == Some(Replay(map[], ms)) &&
      Inv(Apply(r, TimerFires(r.timeout.value)))
  {
    Coalesce(New(options, wd, Some(m), false), ms);
  }

  /** A store rebuilt, with a successful read, from the file of a store with nothing
      outstanding holds the same map. */
  lemma RestartSeesData(db: DB, options: map<string, Value>, wd: string)
    requires Inv(db) && !Pending(db)
    requires Paths.Normalize(ConfiguredFile(options), wd) == db.filePath
    ensures New(options, wd, db.disk, true).filePath == db.filePath
    ensures New(options, wd, db.disk, true).data == db.data
  {
  }

  /** The reference map after setting one key twice. */
  lemma ReplaySetTwice(m: map<string, Value>, k: string, v1: Value, v2: Value)
    ensures Replay(m, [SetKey(k, v1), SetKey(k, v2)]) == m[k := v2]
  {
    var ms := [SetKey(k, v1), SetKey(k, v2)];
    assert ms[1..] == [SetKey(k, v2)];
    assert [SetKey(k, v2)][1..] == [];
    calc {
      Replay(m, ms);
      Replay(m[k := v1], [SetKey(k, v2)]);
      Replay(m[k := v1][k := v2], []);
      m[k := v2];
    }
  }

  /** Set a key twice in quick succession, let the timer fire and rebuild the store
      from its file with a successful read: the key reads the second value. */
  lemma SetTwiceThenRestart(db: DB, k: string, v1: Value, v2: Value,
                            options: map<string, Value>, wd: string)
    requires TimersValid(db)
    requires Paths.Normalize(ConfiguredFile(options), wd) == db.filePath
    ensures var r := Run(db, [SetKey(k, v1), SetKey(k, v2)]);
      r.timeout.Some? &&
      Get(New(options, wd, Apply(r, TimerFires(r.timeout.value)).disk, true), k) == v2
  {
    var ms := [SetKey(k, v1), SetKey(k, v2)];
    assert AllMutations(ms);
    Coalesce(db, ms);
    ReplaySetTwice(db.data, k, v1, v2);
  }

  /** The reference map after setting and then deleting one key. */
  lemma ReplaySetDelete(m: map<string, Value>, k: string, v: Value)
    ensures Replay(m, [SetKey(k, v), DeleteKey(k)]) == m - {k}
  {
    var ms := [SetKey(k, v), DeleteKey(k)];
    assert ms[1..] == [DeleteKey(k)];
    assert [DeleteKey(k)][1..] == [];
    calc {
      Replay(m, ms);
      Replay(m[k := v], [DeleteKey(k)]);
      Replay(m[k := v] - {k}, []);
      m - {k};
    }
  }

  /** Set then delete one key before the timer fires: after the flush the key is in
      neither memory nor the file. */
  lemma SetThenDeleteThenFlush(db: DB, k: string, v: Value)
    requires TimersValid(db)
    ensures var ms := [SetKey(k, v), DeleteKey(k)];
      var r := Run(db, ms);
      r.timeout.Some? && Apply(r, TimerFires(r.timeout.value)).disk == Some(db.data - {k})
  {
    var ms := [SetKey(k, v), DeleteKey(k)];
    assert AllMutations(ms);
    Coalesce(db, ms);
    ReplaySetDelete(db.data, k, v);
  }
}

=== FILE: paths.dfy ===
/**
 Where a SimpleDB keeps its file: the configured name forced to end in `.json`
 and made absolute against the working directory.

 `filepath.IsAbs` is modelled as "starts with `/`" and `filepath.Join` as joining
 with a single `/` separator, without the lexical cleaning Go applies.
 */
module Paths {

  /** The extension every backing file carries. */
  const JsonExt := ".json"

  predicate HasSuffix(s: string, suffix: string) {
    |suffix| <= |s| && s[|s| - |suffix|..] == suffix
  }

  predicate IsPrefix(prefix: string, s: string) {
    |prefix| <= |s| && s[..|prefix|] == prefix
  }

  /** Go's `filepath.IsAbs` on a Unix platform. */
  predicate IsAbs(p: string) {
    |p| > 0 && p[0] == '/'
  }

  /** `p` with `.json` appended unless it already ends that way. */
  function WithJsonExt(p: string): (r: string)
    ensures HasSuffix(r, JsonExt)
    ensures IsPrefix(p, r)
    ensures r == p <==> HasSuffix(p, JsonExt)
    ensures !HasSuffix(p, JsonExt) ==> r == p + JsonExt
    ensures |r| <= |p| + |JsonExt|
  {
    if HasSuffix(p, JsonExt) then p
    else
      var r := p + JsonExt;
      assert r[|r| - |JsonExt|..] == JsonExt;
      r
  }

  /** `filepath.Join(dir, p)` without cleaning: `p` below `dir`. */
  function Join(dir: string, p: string): (r: string)
    ensures HasSuffix(r, p)
    ensures IsPrefix(dir, r)
    ensures IsAbs(dir) ==> IsAbs(r)
  {
    if dir == "" then p
    else if p == "" then dir
    else
      var r := dir + "/" + p;
      assert r[|r| - |p|..] == p;
      assert r[..|dir|] == dir;
      r
  }

  /** A relative name joined onto the working directory; an absolute one as is. */
  function Resolve(p: string, wd: string): (r: string)
    ensures IsAbs(p) ==> r == p
    ensures !IsAbs(p) ==> IsPrefix(wd, r) && HasSuffix(r, p)
    ensures IsAbs(wd) ==> IsAbs(r)
  {
    if IsAbs(p) then p else Join(wd, p)
  }

  /** The backing file's path: `.json` enforced, then resolved against `wd`. */
  function Normalize(p: string, wd: string): (r: string)
    ensures HasSuffix(r, JsonExt)
    ensures IsAbs(p) ==> r == WithJsonExt(p)
    ensures IsAbs(p) && HasSuffix(p, JsonExt) ==> r == p
    ensures IsAbs(wd) ==> IsAbs(r)
  {
    var named := WithJsonExt(p);
    assert IsAbs(p) ==> IsAbs(named) by {
      if IsAbs(p) { assert named[0] == p[0]; }
    }
    assert HasSuffix(Resolve(named, wd), JsonExt) by {
      if !IsAbs(named) {
        SuffixTransitive(Resolve(named, wd), named, JsonExt);
      }
    }
    Resolve(named, wd)
  }

  /** A suffix of a suffix is a suffix; lets `.json` survive the join. */
  lemma SuffixTransitive(a: string, b: string, c: string)
    requires HasSuffix(a, b) && HasSuffix(b, c)
    ensures HasSuffix(a, c)
  {
    var tail := a[|a| - |b|..];
    assert tail == b;
    assert a[|a| - |c|..] == tail[|tail| - |c|..];
  }

  /** The `.json` step never adds the extension twice: applying it again changes nothing. */
  lemma WithJsonExtIdempotent(p: string)
    ensures WithJsonExt(WithJsonExt(p)) == WithJsonExt(p)
  {
  }

  /** With an absolute working directory a normalised path is a fixed point. */
  lemma NormalizeIdempotent(p: string, wd: string)
    requires IsAbs(wd)
    ensures Normalize(Normalize(p, wd), wd) == Normalize(p, wd)
  {
  }
}

=== FILE: store.dfy ===
/**
 The SimpleDB store: an in-memory map from string keys to values, mirrored to a
 JSON file by a single-shot timer that every mutation re-arms.

 The file system is an abstract snapshot (`disk`) and the timer runtime an abstract
 set of armed timers, so every operation is a pure transition on `DB`.
 */
module Store {
  import opened Values
  import Paths

  /** Identifies one timer created by `time.AfterFunc`. */
  type TimerId = nat

  /** A store together with the part of the world it talks to.
      - `data`, `filePath`, `debugEnabled`, `timeout` are the fields of the Go struct
        (`timeout` is the handle to the last armed timer, or nil).
      - `armed` are the timers the runtime will still fire; `nextTimer` is the id the
        next `time.AfterFunc` returns.
      - `disk` is what the backing file holds: a JSON object, or `None` when the file
        is missing or does not hold one. */
  datatype DB = DB(
    data: map<string, Value>,
    filePath: string,
    debugEnabled: bool,
    timeout: Option<TimerId>,
    armed: set<TimerId>,
    nextTimer: TimerId,
    disk: Option<map<string, Value>>)

  /** The timers a handle refers to. */
  function Handled(h: Option<TimerId>): set<TimerId> {
    match h
    case Some(t) => {t}
    case None => {}
  }

  /** The map a fresh store would load from the disk: its object, or empty. */
  function Load(disk: Option<map<string, Value>>): map<string, Value> {
    disk.GetOr(map[])
  }

  /** A flush is outstanding. */
  predicate Pending(db: DB) {
    db.armed != {}
  }

  /** The timer bookkeeping is sound: the runtime holds exactly the timer the handle
      names (so no orphaned timer can flush behind the store's back), and that timer's
      id was issued. */
  predicate TimersValid(db: DB) {
    && db.armed == Handled(db.timeout)
    && (db.timeout.Some? ==> db.timeout.value < db.nextTimer)
  }

  /** Without an outstanding flush, the file holds exactly the in-memory map. */
  predicate Synced(db: DB) {
    !Pending(db) ==> Load(db.disk) == db.data
  }

  predicate Inv(db: DB) {
    TimersValid(db) && Synced(db)
  }

  /** The file used when the options name none. */
  const DefaultFile := "./db.json"

  /** The option that names the file. */
  const FileOption := "file"

  /** The option that switches diagnostic output on. */
  const DebugOption := "debug"

  /** The file name the options select: the `file` option when it holds a string,
      the default otherwise (a missing option and one of another type alike). */
  function ConfiguredFile(options: map<string, Value>): (r: string)
    ensures FileOption in options && options[FileOption].Str? ==> r == options[FileOption].s
    ensures (FileOption !in options || !options[FileOption].Str?) ==> r == DefaultFile
  {
    if FileOption in options && options[FileOption].Str? then options[FileOption].s
    else DefaultFile
  }

  /** Whether diagnostic output is on: the `debug` option when it holds a boolean,
      off otherwise. */
  function ConfiguredDebug(options: map<string, Value>): (r: bool)
    ensures r <==> DebugOption in options && options[DebugOption] == Bool(true)
  {
    if DebugOption in options && options[DebugOption].Bool? then options[DebugOption].b
    else false
  }

  /** `NewSimpleDB(options)` with the working directory `wd`. `file` is what the
      normalised file holds (`None` when it is missing or holds no JSON object) and
      `readOk` whether `ioutil.ReadFile` succeeded. Only a successful read loads the
      object; a failed one starts empty even though the file may hold data. No timer
      is armed, and memory agrees with the file unless a failed read left data behind. */
  function New(options: map<string, Value>, wd: string,
               file: Option<map<string, Value>>, readOk: bool): (db: DB)
    ensures TimersValid(db) && !Pending(db) && db.timeout.None?
    ensures Paths.HasSuffix(db.filePath, Paths.JsonExt)
    ensures Paths.IsAbs(wd) ==> Paths.IsAbs(db.filePath)
    ensures db.filePath == Paths.Normalize(ConfiguredFile(options), wd)
    ensures db.debugEnabled == ConfiguredDebug(options)
    ensures readOk && file.Some? ==> db.data == file.value
    ensures !readOk || file.None? ==> db.data == map[]
    ensures db.disk == file
    ensures Inv(db) <==> readOk || Load(file) == map[]
  {
    DB(data := if readOk then Load(file) else map[],
       filePath := Paths.Normalize(ConfiguredFile(options), wd),
       debugEnabled := ConfiguredDebug(options),
       timeout := None,
       armed := {},
       nextTimer := 0,
       disk := file)
  }

  /** A store whose read failed on a file that holds entries starts empty, and its
      first flush overwrites the file with only what was set since: every entry the
      file held under another key is lost. */
  lemma UnreadFileIsOverwritten(options: map<string, Value>, wd: string,
                                m: map<string, Value>, k: string, v: Value)
    ensures var s := Set(New(options, wd, Some(m), false), k, v);
      s.timeout.Some? &&
      Fire(s, s.timeout.value).disk == Some(map[k := v]) &&
      forall x :: x in m && x != k ==> x !in Fire(s, s.timeout.value).disk.value
  {
    var s := Set(New(options, wd, Some(m), false), k, v);
    assert s.data == map[k := v];
  }

  /** The path a new store uses: without a string `file` option, `./db.json` below the
      working directory; with one naming an absolute `.json` path, exactly that path.
      The default path is left uncleaned (`<wd>/./db.json`), where Go's `filepath.Join`
      would give `<wd>/db.json`. */
  lemma NewPathFromOptions(options: map<string, Value>, wd: string,
                           file: Option<map<string, Value>>, readOk: bool)
    ensures (FileOption !in options || !options[FileOption].Str?) && wd != ""
      ==> New(options, wd, file, readOk).filePath == wd + "/" + DefaultFile
    ensures (&& FileOption in options && options[FileOption].Str?
             && Paths.IsAbs(options[FileOption].s)
             && Paths.HasSuffix(options[FileOption].s, Paths.JsonExt))
      ==> New(options, wd, file, readOk).filePath == options[FileOption].s
  {
    assert Paths.HasSuffix(DefaultFile, Paths.JsonExt) by {
      assert DefaultFile[|DefaultFile| - |Paths.JsonExt|..] == Paths.JsonExt;
    }
    assert !Paths.IsAbs(DefaultFile) by {
      assert DefaultFile[0] == '.';
    }
  }

  /** `timeoutRemove`: stop the timer the handle names, if any, and clear the handle.
      Under sound bookkeeping nothing stays armed. */
  function TimeoutRemove(db: DB): (r: DB)
    ensures r.timeout.None?
    ensures r.armed == db.armed - Handled(db.timeout)
    ensures TimersValid(db) ==> TimersValid(r) && !Pending(r)
    ensures r.data == db.data && r.disk == db.disk && r.filePath == db.filePath
    ensures r.nextTimer == db.nextTimer && r.debugEnabled == db.debugEnabled
  {
    match db.timeout
    case Some(t) => db.(armed := db.armed - {t}, timeout := None)
    case None => db
  }

  /** `timeoutSet`: arm a fresh timer and point the handle at it, without looking at
      the old handle. */
  function TimeoutSet(db: DB): (r: DB)
    ensures r.timeout.Some?
    ensures TimersValid(db) ==> r.timeout.value !in db.armed
    ensures r.armed == db.armed + Handled(r.timeout)
    ensures r.nextTimer > db.nextTimer
    ensures TimersValid(db) && db.timeout.None? ==> TimersValid(r) && |r.armed| == 1
    ensures r.data == db.data && r.disk == db.disk && r.filePath == db.filePath
    ensures r.debugEnabled == db.debugEnabled
  {
    db.(armed := db.armed + {db.nextTimer},
        timeout := Some(db.nextTimer),
        nextTimer := db.nextTimer + 1)
  }

  /** The guarded cancel-then-arm shared by `Set` and `Delete`: afterwards exactly
      one flush is outstanding, and it is a new one. */
  function Rearm(db: DB): (r: DB)
    ensures r.timeout.Some? && r.timeout.value >= db.nextTimer
    ensures TimersValid(db) ==> TimersValid(r) && |r.armed| == 1 && r.armed !! db.armed
    ensures TimersValid(db) ==> forall t :: t in r.armed ==> db.nextTimer <= t
    ensures r.nextTimer > db.nextTimer
    ensures r.data == db.data && r.disk == db.disk && r.filePath == db.filePath
    ensures r.debugEnabled == db.debugEnabled
  {
    var stopped := if db.timeout.Some? then TimeoutRemove(db) else db;
    TimeoutSet(stopped)
  }

  /** `Set(key, value)`: the key now maps to the value, every other entry is kept, and
      a new flush replaces any outstanding one. */
  function Set(db: DB, key: string, value: Value): (r: DB)
    ensures key in r.data && r.data[key] == value
    ensures r.data.Keys == db.data.Keys + {key}
    ensures forall k :: k in db.data && k != key ==> r.data[k] == db.data[k]
    ensures r.disk == db.disk && r.filePath == db.filePath && r.debugEnabled == db.debugEnabled
    ensures TimersValid(db) ==> Inv(r) && |r.armed| == 1 && r.armed !! db.armed
  {
    var armed := Rearm(db);
    armed.(data := armed.data[key := value])
  }

  /** `Get(key)`: the stored value, or nil when the key is missing. */
  function Get(db: DB, key: string): (v: Value)
    ensures key in db.data ==> v == db.data[key]
    ensures key !in db.data ==> v == Nil
  {
    if key in db.data then db.data[key] else Nil
  }

  /** `Delete(key)`: the key is gone, every other entry is kept, and a new flush
      replaces any outstanding one even when the key was not there. */
  function Delete(db: DB, key: string): (r: DB)
    ensures key !in r.data
    ensures r.data.Keys == db.data.Keys - {key}
    ensures forall k :: k in r.data ==> r.data[k] == db.data[k]
    ensures key !in db.data ==> r.data == db.data
    ensures r.disk == db.disk && r.filePath == db.filePath && r.debugEnabled == db.debugEnabled
    ensures TimersValid(db) ==> Inv(r) && |r.armed| == 1 && r.armed !! db.armed
  {
    var armed := Rearm(db);
    armed.(data := armed.data - {key})
  }

  /** `Keys()`: every key of the map exactly once, in whatever order the map
      iteration yields them. */
  method Keys(db: DB) returns (keys: seq<string>)
    ensures forall k :: k in keys <==> k in db.data
    ensures forall i, j :: 0 <= i < j < |keys| ==> keys[i] != keys[j]
    ensures |keys| == |db.data|
  {
    keys := [];
    var rest := db.data.Keys;
    while rest != {}
      invariant rest <= db.data.Keys
      invariant forall k :: k in keys <==> k in db.data && k !in rest
      invariant forall i, j :: 0 <= i < j < |keys| ==> keys[i] != keys[j]
      invariant |keys| + |rest| == |db.data|
      decreases |rest|
    {
      var k :| k in rest;
      keys := keys + [k];
      rest := rest - {k};
    }
  }

  /** `writeDb`: the file now holds the current map and the handle is cleared.
      Under sound bookkeeping nothing is left outstanding. */
  function WriteDb(db: DB): (r: DB)
    ensures r.disk == Some(db.data)
    ensures Load(r.disk) == r.data && r.data == db.data
    ensures r.timeout.None? && r.armed == db.armed - Handled(db.timeout)
    ensures r.filePath == db.filePath && r.debugEnabled == db.debugEnabled
    ensures TimersValid(db) ==> Inv(r) && !Pending(r)
  {
    TimeoutRemove(db.(disk := Some(db.data)))
  }

  /** The runtime fires timer `t`: a stopped (or already fired) timer does nothing;
      an armed one leaves the runtime and runs `writeDb`. */
  function Fire(db: DB, t: TimerId): (r: DB)
    ensures t in db.armed ==> r.disk == Some(db.data) && r.timeout.None?
    ensures t !in db.armed ==> r == db
    ensures r.data == db.data && r.filePath == db.filePath && r.debugEnabled == db.debugEnabled
    ensures TimersValid(db) && t in db.armed ==> Inv(r) && !Pending(r)
  {
    if t in db.armed then WriteDb(db.(armed := db.armed - {t})) else db
  }

  /** At most one flush is ever outstanding while the bookkeeping is sound. */
  lemma AtMostOnePending(db: DB)
    requires TimersValid(db)
    ensures |db.armed| <= 1
    ensures Pending(db) <==> db.timeout.Some?
  {
  }

  /** Arming without the guard of `Set`/`Delete` would orphan the old timer: two
      flushes would be outstanding and the handle could stop only one of them. */
  lemma UnguardedArmOrphansTimer(db: DB)
    requires TimersValid(db) && db.timeout.Some?
    ensures |TimeoutSet(db).armed| == 2
    ensures !TimersValid(TimeoutSet(db))
  {
    var r := TimeoutSet(db);
    assert r.armed == {db.timeout.value, db.nextTimer};
  }

  /** `timeoutRemove` is idempotent. */
  lemma TimeoutRemoveIdempotent(db: DB)
    ensures TimeoutRemove(TimeoutRemove(db)) == TimeoutRemove(db)
  {
  }

  /** After `Set(k, v)`, `Get(k)` returns `v` and every other key reads as before. */
  lemma GetAfterSet(db: DB, k: string, v: Value, other: string)
    ensures Get(Set(db, k, v), k) == v
    ensures other != k ==> Get(Set(db, k, v), other) == Get(db, other)
  {
  }

  /** After `Delete(k)`, `Get(k)` is nil and every other key reads as before. */
  lemma GetAfterDelete(db: DB, k: string, other: string)
    ensures Get(Delete(db, k), k) == Nil
    ensures other != k ==> Get(Delete(db, k), other) == Get(db, other)
  {
  }

  /** A missing key and a key stored with nil read the same, although the maps differ. */
  lemma MissingReadsAsNil(db: DB, k: string)
    requires k !in db.data
    ensures Get(db, k) == Get(Set(db, k, Nil), k) == Nil
    ensures Set(db, k, Nil).data != db.data
  {
    assert k in Set(db, k, Nil).data;
  }

  /** Deleting a missing key keeps the map but still replaces the outstanding flush. */
  lemma DeleteMissingRearms(db: DB, k: string)
    requires TimersValid(db) && k !in db.data
    ensures Delete(db, k).data == db.data
    ensures Pending(Delete(db, k))
    ensures Delete(db, k).armed !! db.armed
  {
  }
}

=== FILE: values.dfy ===
/**
 The values a SimpleDB holds. The store keeps Go `interface{}` values, which in
 practice are whatever `encoding/json` produces or the caller passes in; the model
 keeps the shapes that matter for its behaviour and leaves their contents abstract.
 */
module Values {

  /** A stored value. `Nil` is Go's untyped nil, which is also what a lookup of a
      missing key yields; `Composite` stands for arrays, objects and any other
      value the store carries without looking inside. */
  datatype Value =
    | Nil
    | Bool(b: bool)
    | Number(n: int)
    | Str(s: string)
    | Composite(tag: nat)

  /** A value that may be missing: the loaded file contents, the timer handle. */
  datatype Option<+T> = None | Some(value: T) {

    /** The carried value; `default` stands in for a missing one. */
    function GetOr(default: T): T
    {
      match this
      case Some(v) => v
      case None => default
    }
  }
}
